=== FILE: README.md ===
# Singleton lifecycle of `oop_ext.foundation.singleton`

A Dafny model of the per-class singleton lifecycle that `oop_ext` offers through
its `Singleton` base class, together with proofs of the behaviour its test suite
(`src/oop_ext/foundation/_tests/test_singleton.py`) pins down.

Every class derived from `Singleton` owns one lifecycle record (`Singleton.State`):

- an optional **base** instance, installed by `SetSingleton` or created lazily by
  the first `GetSingleton` through `CreateDefaultSingleton`;
- an **override stack**, grown by `PushSingleton` and shrunk by `PopSingleton`,
  whose depth `GetStackCount` reports. The base is never part of the stack;
- a counter of how often the lazy-construction path of `GetSingleton` ran
  (`_ObtainStack` followed by `CreateDefaultSingleton`), the quantity the test
  observes through its `After` hook;
- the identity the next constructed object receives. Objects are opaque ids
  handed out by `Allocate`, so "the same instance" is plain equality of ids.

The current instance is the top of the stack, else the base. Operations are
pure functions: the ones that may raise return
`Result<State, Error>` with the three error classes `SingletonAlreadySetError`,
`SingletonNotSetError` and `PushPopSingletonError`; `GetSingleton` and
`PushSingleton` never raise and return the new record directly.

Files:

- `wrappers.dfy`: `Option` and `Result`.
- `singleton.dfy` (module `Singleton`): the record, the derived mode
  (`Unset`, `BaseSet`, `Stacked(n)`), and the operations `GetSingleton`,
  `HasSingleton`, `GetStackCount`, `SetSingleton`, `ClearSingleton`,
  `PushSingleton`, `PopSingleton`, each with its error cases in its contract.
- `properties.dfy` (module `SingletonProperties`): round trips and the
  once-only lazy construction.
- `lifecycle.dfy` (module `Lifecycle`): arbitrary call sequences (`Step`, `Run`),
  where a raised error leaves the record untouched, and lemmas over them: stack
  depth equals unmatched pushes at every point, construction happens at most
  once per successful clear, an override scope restores what was current.
- `singleton_tests.dfy` (module `SingletonTests`): the four sequential tests,
  stated for every class that has no instance yet.

Where the test file disagrees with itself, the model follows the executable
assertions: the comment at `test_singleton.py:26` says the auto-created default
is "also put in the stack", but the assertion at lines 55-58 shows `PopSingleton`
refusing to pop it, so the base is never on the stack. When the stack is in use
and a base exists, `SetSingleton` raises `PushPopSingletonError` (lines 43-44),
so the stack check comes before the already-set check. `ClearSingleton` on a
stacked class with no base raises `PushPopSingletonError` rather than
`SingletonNotSetError` (lines 91-92), so the stack check also comes before the
not-set check.

## Model

| member | source | states |
|---|---|---|
| `Singleton.Allocate` | src/oop_ext/foundation/_tests/test_singleton.py:23-24 | constructing an object yields an identity different from every one handed out before (so from every object a caller or the record still holds), moves the counter past it so it is never handed out again, and changes nothing else |
| `Singleton.GetSingleton` | src/oop_ext/foundation/_tests/test_singleton.py:26-29 | never raises; with a current instance it returns it and changes nothing; with none it constructs a default whose identity was never handed out before, makes it the base, bumps the construction count by one and leaves the stack alone; afterwards the returned instance is the current one |
| `Singleton.HasSingleton` | src/oop_ext/foundation/_tests/test_singleton.py:66-76 | true exactly when the class is not in the unset mode, which is exactly when `GetSingleton` would construct nothing |
| `Singleton.GetStackCount` | src/oop_ext/foundation/_tests/test_singleton.py:87-101 | zero exactly when no override is pushed, otherwise the depth of the stacked mode; the base is not counted |
| `Singleton.SetSingleton` | src/oop_ext/foundation/_tests/test_singleton.py:31-53 | raises `PushPopSingletonError` while the stack is in use and `SingletonAlreadySetError` when a base exists; succeeds exactly on an unset class, after which `GetSingleton` returns the given instance without constructing |
| `Singleton.ClearSingleton` | src/oop_ext/foundation/_tests/test_singleton.py:75-79 | raises `PushPopSingletonError` while the stack is in use and `SingletonNotSetError` on an unset class; succeeds exactly when only a base is set, after which `HasSingleton` is false |
| `Singleton.PushSingleton` | src/oop_ext/foundation/_tests/test_singleton.py:37-39 | the stack grows by one entry on top of the old one, base and construction count untouched; the pushed instance becomes current; with no argument a default whose identity was never handed out before is pushed |
| `Singleton.PopSingleton` | src/oop_ext/foundation/_tests/test_singleton.py:55-58 | raises `PushPopSingletonError` exactly when the stack is empty, even if a base exists; otherwise removes only the top entry and leaves base and counters alone |
| `Lifecycle.Step` | src/oop_ext/foundation/_tests/test_singleton.py:33-35 | a raised error leaves the record unchanged; only set, clear and pop can raise; a pop raises exactly on an empty stack; a refused pop raises `PushPopSingletonError`; no call changes the stack depth by more than one; the identity counter never moves back, and `New` or a constructing `GetSingleton` replies with an identity never handed out before |
| `Lifecycle.StepPreservesValid` | src/oop_ext/foundation/_tests/test_singleton.py:28-35 | every call keeps the record referring only to objects constructed before, provided the instance it is passed was constructed before |
| `Lifecycle.StackCountIsUnmatchedPushes` | src/oop_ext/foundation/_tests/test_singleton.py:87-104 | over any call sequence whose pops are all matched, `GetStackCount` moves by pushes minus pops and no pop raises |
| `Lifecycle.CountReportsUnmatchedPushes` | src/oop_ext/foundation/_tests/test_singleton.py:87-104 | at any point of a call sequence whose pops before that point are matched (later ones may be unmatched), a `GetStackCount` call replies with the stack depth at the start plus the pushes before it minus the pops before it |
| `Lifecycle.ConstructionsBoundedByClears` | src/oop_ext/foundation/_tests/test_singleton.py:118-126 | over every call sequence, the lazy path of `GetSingleton` runs at most once more than the number of `ClearSingleton` calls that returned, and no more often than those clears when a base already existed |
| `Lifecycle.ConstructedAtMostOnceUntilCleared` | src/oop_ext/foundation/_tests/test_singleton.py:118-126 | over any call sequence in which no `ClearSingleton` returns (refused ones allowed), the construction path runs at most once, and not at all (the base staying the same object) when a base already existed; a construction leaves a base in place |
| `Lifecycle.RepeatedGetsReturnSameInstance` | src/oop_ext/foundation/_tests/test_singleton.py:120-126 | any number of consecutive `GetSingleton` calls all return the first call's instance and construct at most once, never when an instance is already current |
| `Lifecycle.ScopeKeepsLowerLevels` | src/oop_ext/foundation/_tests/test_singleton.py:37-48 | while a pushed override is in effect and every pop is matched, the entries below it, the base and the construction count are untouched |
| `Lifecycle.OverrideScopeRestores` | src/oop_ext/foundation/_tests/test_singleton.py:46-48 | push, any balanced call sequence, then pop: the pushed instance is current before the pop, and the pop restores the stack, the base and the current instance from before the push |
| `SingletonProperties.PushPopRoundTrip` | src/oop_ext/foundation/_tests/test_singleton.py:38-48 | popping right after a push gives back the previous record, up to identities handed out for a pushed default |
| `SingletonProperties.SetClearRoundTrip` | src/oop_ext/foundation/_tests/test_singleton.py:68-76 | on an unset class, clearing right after a set gives back the previous record |
| `SingletonProperties.LazyDefaultConstructedOnce` | src/oop_ext/foundation/_tests/test_singleton.py:26-35 | on an unset class the first get constructs once and installs the default as base; the next get returns it without constructing, set raises already-set, pop raises push/pop |
| `SingletonProperties.StackedForbidsSetAndClear` | src/oop_ext/foundation/_tests/test_singleton.py:41-44 | with a non-empty stack, set and clear both raise `PushPopSingletonError` whatever the base, and `HasSingleton` is true |
| `SingletonTests.TestSingleton` | src/oop_ext/foundation/_tests/test_singleton.py:16-58 | the whole of `testSingleton`, for every unset class: same default on each get, refused sets, pushed instance current, pop back to the default, pop of the base refused |
| `SingletonTests.TestSetSingleton` | src/oop_ext/foundation/_tests/test_singleton.py:61-79 | the whole of `testSetSingleton`: has is false, set, has is true and get returns it, second set refused, clear, has is false, second clear refused |
| `SingletonTests.TestPushPop` | src/oop_ext/foundation/_tests/test_singleton.py:82-104 | the whole of `testPushPop`: default pushes count 1 then 2, clear refused while pushed, pops count back to 0, a further pop refused |
| `SingletonTests.TestSingletonOptimization` | src/oop_ext/foundation/_tests/test_singleton.py:107-126 | the whole of `testSingletonOptimization`: the construction path runs on the first get and not on the second |

## Left out

- Thread safety and the double-checked creation lock (`testGetSingletonThreadSafe`, lines 129-148): the model is sequential. `Lifecycle.ConstructedAtMostOnceUntilCleared` is the single-threaded counterpart of "the construction hook runs once", but it bounds runs of the lazy path of `GetSingleton`. The thread test counts calls of `CreateDefaultSingleton`, and `PushSingleton()` with no argument calls that hook too, so the two numbers agree only when no default is pushed.
- The `After` hook from `oop_ext.foundation.callback` (line 118) is modelled only as the construction counter in the record. The counter rises on the lazy path of `GetSingleton` and nowhere else. A default built by `PushSingleton()` with no argument does not bump it.
- The `@Override` check on `CreateDefaultSingleton` (line 22): method-override validation, not lifecycle logic. A per-class `CreateDefaultSingleton` is modelled as `Allocate`: it produces a new object, and which class or value it has is irrelevant.
- The `value` attribute and its mutation (lines 13, 19, 29): the tests use it only to observe identity, which the ids already state directly.
- The implementation in `oop_ext/foundation/singleton.py` is not consulted; the behaviour comes from the tests. Where no test observes a case, the model follows the mode-based rules stated in `singleton.dfy`: the stack is checked before the base, and the current instance is the top of the stack, else the base. These cases are assumptions, not observed behaviour:
  - `SetSingleton` on a stacked class with no base raises `PushPopSingletonError` (the test at lines 43-44 has a base).
  - `ClearSingleton` on a stacked class with a base raises `PushPopSingletonError` (the test at lines 91-92 has no base).
  - `HasSingleton` is true while the stack is in use, even with no base.
  - `GetSingleton` on a stack over an absent base returns the top without constructing (`testPushPop` never calls `GetSingleton`).
  - `PushSingleton()` with no argument builds its default directly and does not run the counted lazy path (`testSingletonOptimization` never pushes).
  - What `PushSingleton` and `PopSingleton` return is not modelled.
- pytest and mocker scaffolding.

=== FILE: lifecycle.dfy ===
/**
  Sequences of calls on one class's lifecycle record, as a test issues them:
  a raised error is caught by the caller and leaves the record as it was.
 */
module Lifecycle {
  import opened Wrappers
  import opened Singleton

  /** One call on the class (`New` is a call site constructing an object). */
  datatype Op =
    | New
    | Get
    | Has
    | Count
    | Set(x: Inst)
    | Clear
    | Push(arg: Option<Inst>)
    | Pop

  /** What a call gave back. */
  datatype Reply = Instance(id: Inst) | Flag(b: bool) | Depth(n: nat) | Done

  /** A call either returns or raises one of the singleton errors. */
  datatype Outcome = Returned(reply: Reply) | Raised(error: Error)

  function Lift(s: State, r: Result<State, Error>): (State, Outcome) {
    match r
    case Success(s') => (s', Returned(Done))
    case Failure(e) => (s, Raised(e))
  }

  /** Performs one call. */
  function Step(s: State, op: Op): (r: (State, Outcome))
    // a raised error leaves the record untouched
    ensures r.1.Raised? ==> r.0 == s
    // only `Set`, `Clear` and `Pop` can raise, and only `PushPopSingletonError` from `Pop`
    ensures r.1.Raised? ==> op.Set? || op.Clear? || op.Pop?
    ensures op.Pop? ==> (r.1.Raised? <==> s.stack == [])
    ensures op.Pop? && r.1.Raised? ==> r.1.error == PushPopSingletonError
    // no transition skips a level of the stack
    ensures |r.0.stack| <= |s.stack| + 1 && |s.stack| <= |r.0.stack| + 1
    // the identity counter never moves back, and a constructed object (`New`, or
    // the default of a slow-path `Get`) gets an identity never handed out before
    ensures s.nextId <= r.0.nextId
    ensures op.New? || (op.Get? && Current(s).None?) ==>
      && r.1.Returned? && r.1.reply.Instance?
      && s.nextId <= r.1.reply.id < r.0.nextId
  {
    match op
    case New =>
      var (s', x) := Allocate(s);
      (s', Returned(Instance(x)))
    case Get =>
      var (s', x) := GetSingleton(s);
      (s', Returned(Instance(x)))
    case Has => (s, Returned(Flag(HasSingleton(s))))
    case Count => (s, Returned(Depth(GetStackCount(s))))
    case Set(x) => Lift(s, SetSingleton(s, x))
    case Clear => Lift(s, ClearSingleton(s))
    case Push(x) => (PushSingleton(s, x), Returned(Done))
    case Pop => Lift(s, PopSingleton(s))
  }

  /** Performs the calls in order, collecting one outcome per call. */
  function Run(s: State, ops: seq<Op>): (r: (State, seq<Outcome>))
    ensures |r.1| == |ops|
    decreases |ops|
  {
    if ops == [] then (s, [])
    else
      var (s1, o) := Step(s, ops[0]);
      var (s2, os) := Run(s1, ops[1..]);
      (s2, [o] + os)
  }

  /** Running two call sequences one after the other is running their concatenation. */
  lemma {:induction false} RunAppend(s: State, a: seq<Op>, b: seq<Op>)
    ensures Run(s, a + b) == (Run(Run(s, a).0, b).0, Run(s, a).1 + Run(Run(s, a).0, b).1)
    decreases |a|
  {
    if a == [] {
      assert a + b == b;
      assert Run(s, a) == (s, []);
      assert [] + Run(s, b).1 == Run(s, b).1;
    } else {
      var (s1, o) := Step(s, a[0]);
      assert (a + b)[0] == a[0];
      assert (a + b)[1..] == a[1..] + b;
      RunAppend(s1, a[1..], b);
      var mid := Run(s1, a[1..]);
      assert Run(s, a) == (mid.0, [o] + mid.1);
      assert [o] + (mid.1 + Run(mid.0, b).1) == ([o] + mid.1) + Run(mid.0, b).1;
    }
  }

  /** The explicit instance a call passes was constructed before the call. */
  predicate ArgAllocated(s: State, op: Op) {
    match op
    case Set(x) => x < s.nextId
    case Push(x) => x.None? || x.value < s.nextId
    case _ => true
  }

  lemma StepPreservesValid(s: State, op: Op)
    requires Valid(s) && ArgAllocated(s, op)
    ensures Valid(Step(s, op).0)
  {
  }

  /** Number of `PushSingleton` calls in `ops`. */
  function Pushes(ops: seq<Op>): nat {
    if ops == [] then 0 else (if ops[0].Push? then 1 else 0) + Pushes(ops[1..])
  }

  /** Number of `PopSingleton` calls in `ops`. */
  function Pops(ops: seq<Op>): nat {
    if ops == [] then 0 else (if ops[0].Pop? then 1 else 0) + Pops(ops[1..])
  }

  /**
    Starting from `depth` entries, every pop in `ops` is matched: no prefix
    pops more than it (and the initial stack) pushed.
   */
  predicate PopsMatched(depth: nat, ops: seq<Op>) {
    forall k :: 0 <= k <= |ops| ==> Pops(ops[..k]) <= depth + Pushes(ops[..k])
  }

  lemma {:induction false} PopsMatchedTail(depth: nat, ops: seq<Op>)
    requires ops != [] && PopsMatched(depth, ops)
    ensures ops[0].Pop? ==> depth > 0
    ensures PopsMatched(if ops[0].Push? then depth + 1 else if ops[0].Pop? then depth - 1 else depth, ops[1..])
  {
    assert ops[..1][1..] == [];
    assert Pops(ops[..1]) <= depth + Pushes(ops[..1]);
    var d' := if ops[0].Push? then depth + 1 else if ops[0].Pop? then depth - 1 else depth;
    forall k | 0 <= k <= |ops[1..]|
      ensures Pops(ops[1..][..k]) <= d' + Pushes(ops[1..][..k])
    {
      assert ops[..k + 1][1..] == ops[1..][..k];
      assert Pops(ops[..k + 1]) <= depth + Pushes(ops[..k + 1]);
    }
  }

  /**
    `GetStackCount` equals the number of unmatched pushes: when every pop is
    matched, no pop raises and the depth moves by pushes minus pops.
   */
  lemma {:induction false} StackCountIsUnmatchedPushes(s: State, ops: seq<Op>)
    requires PopsMatched(|s.stack|, ops)
    ensures GetStackCount(Run(s, ops).0) == GetStackCount(s) + Pushes(ops) - Pops(ops)
    ensures forall i :: 0 <= i < |ops| && ops[i].Pop? ==> Run(s, ops).1[i].Returned?
    decreases |ops|
  {
    if ops != [] {
      PopsMatchedTail(|s.stack|, ops);
      var (s1, o) := Step(s, ops[0]);
      assert |s1.stack| == (if ops[0].Push? then |s.stack| + 1 else if ops[0].Pop? then |s.stack| - 1 else |s.stack|) by {
        match ops[0]
        case Push(x) =>
        case Pop =>
        case Set(x) =>
        case Clear =>
        case _ =>
      }
      StackCountIsUnmatchedPushes(s1, ops[1..]);
      assert Run(s, ops).1 == [o] + Run(s1, ops[1..]).1;
      forall i | 0 <= i < |ops| && ops[i].Pop?
        ensures Run(s, ops).1[i].Returned?
      {
        if i > 0 {
          assert ops[1..][i - 1] == ops[i];
        }
      }
    }
  }

  /** Number of `ClearSingleton` calls in `ops` that returned (a refused clear changes nothing). */
  function Cleared(s: State, ops: seq<Op>): nat
    decreases |ops|
  {
    if ops == [] then 0
    else
      var (s1, o) := Step(s, ops[0]);
      (if ops[0].Clear? && o.Returned? then 1 else 0) + Cleared(s1, ops[1..])
  }

  /**
    Lazy construction happens at most once per successful `ClearSingleton`:
    over any call sequence the lazy path of `GetSingleton` runs at most once
    more than the number of clears that returned, and one time fewer when a
    base was already in place.
   */
  lemma {:induction false} ConstructionsBoundedByClears(s: State, ops: seq<Op>)
    ensures Run(s, ops).0.constructCount
      <= s.constructCount + Cleared(s, ops) + (if s.base.Some? then 0 else 1)
    decreases |ops|
  {
    if ops != [] {
      var (s1, o) := Step(s, ops[0]);
      assert s1.constructCount + (if s1.base.Some? then 0 else 1)
        <= s.constructCount + (if ops[0].Clear? && o.Returned? then 1 else 0) + (if s.base.Some? then 0 else 1);
      ConstructionsBoundedByClears(s1, ops[1..]);
    }
  }

  /**
    Lazy construction happens at most once until the base is cleared: over any
    calls none of which clears successfully (refused clears included), an
    existing base stays the same object and is never reconstructed, an absent
    one is constructed at most once, and a construction leaves a base in place.
   */
  lemma {:induction false} ConstructedAtMostOnceUntilCleared(s: State, ops: seq<Op>)
    requires Cleared(s, ops) == 0
    ensures s.base.Some? ==> Run(s, ops).0.base == s.base
    ensures s.base.Some? ==> Run(s, ops).0.constructCount == s.constructCount
    ensures Run(s, ops).0.constructCount <= s.constructCount + 1
    ensures Run(s, ops).0.constructCount > s.constructCount ==> Run(s, ops).0.base.Some?
    decreases |ops|
  {
    if ops != [] {
      var (s1, o) := Step(s, ops[0]);
      assert s.base.Some? ==> s1.base == s.base && s1.constructCount == s.constructCount;
      assert s1.constructCount == s.constructCount || (s1.constructCount == s.constructCount + 1 && s1.base.Some?);
      assert s.base.None? && s1.base.Some? ==> s1.constructCount <= s.constructCount + 1;
      ConstructedAtMostOnceUntilCleared(s1, ops[1..]);
    }
  }

  /**
    Repeated `GetSingleton` calls construct at most once and all return the
    same instance as the first.
   */
  lemma {:induction false} RepeatedGetsReturnSameInstance(s: State, n: nat)
    ensures var ops := seq(n + 1, _ => Get);
      var (s', outs) := Run(s, ops);
      && s'.constructCount <= s.constructCount + 1
      && (HasSingleton(s) ==> s'.constructCount == s.constructCount)
      && forall i :: 0 <= i < |outs| ==> outs[i] == outs[0]
    decreases n
  {
    var ops := seq(n + 1, _ => Get);
    var (s1, x) := GetSingleton(s);
    if n == 0 {
      assert ops[1..] == [];
    } else {
      RepeatedGetsReturnSameInstance(s1, n - 1);
      assert ops[1..] == seq(n, _ => Get);
      assert GetSingleton(s1) == (s1, x);
      assert Run(s1, ops[1..]).1[0] == Returned(Instance(x));
    }
  }

  /**
    Inside an override scope (`depth` levels above at least one kept entry, and
    every pop matched), the kept entries, the base and the construction count
    are untouched: `SetSingleton` and `ClearSingleton` raise and `GetSingleton`
    takes its fast path.
   */
  lemma {:induction false} ScopeKeepsLowerLevels(s: State, depth: nat, ops: seq<Op>)
    requires depth < |s.stack| && PopsMatched(depth, ops)
    ensures var s' := Run(s, ops).0;
      && s.stack[..|s.stack| - depth] <= s'.stack
      && |s'.stack| == |s.stack| + Pushes(ops) - Pops(ops)
      && s'.base == s.base
      && s'.constructCount == s.constructCount
    decreases |ops|
  {
    if ops != [] {
      PopsMatchedTail(depth, ops);
      var d' := if ops[0].Push? then depth + 1 else if ops[0].Pop? then depth - 1 else depth;
      var (s1, o) := Step(s, ops[0]);
      assert s1.base == s.base && s1.constructCount == s.constructCount;
      assert |s1.stack| - d' == |s.stack| - depth;
      assert s1.stack[..|s1.stack| - d'] == s.stack[..|s.stack| - depth] by {
        match ops[0]
        case Push(x) =>
        case Pop =>
        case _ =>
      }
      ScopeKeepsLowerLevels(s1, d', ops[1..]);
    }
  }

  /**
    `PushSingleton(x)`, any balanced sequence of calls, then the matching
    `PopSingleton`: `x` was current at the end of the scope, and the pop
    restores exactly the stack, base and current instance from before the push.
   */
  lemma OverrideScopeRestores(s: State, x: Inst, ops: seq<Op>)
    requires PopsMatched(0, ops) && Pushes(ops) == Pops(ops)
    ensures var inner := Run(PushSingleton(s, Some(x)), ops).0;
      && Current(inner) == Some(x)
      && PopSingleton(inner).Success?
      && PopSingleton(inner).value.stack == s.stack
      && PopSingleton(inner).value.base == s.base
      && PopSingleton(inner).value.constructCount == s.constructCount
      && Current(PopSingleton(inner).value) == Current(s)
  {
    var s1 := PushSingleton(s, Some(x));
    ScopeKeepsLowerLevels(s1, 0, ops);
    var inner := Run(s1, ops).0;
    assert s1.stack[..|s1.stack|] == s1.stack;
    assert inner.stack == s1.stack;
  }

  /** The outcome of call `i` is that call performed on the record its prefix left. */
  lemma RunAt(s: State, ops: seq<Op>, i: nat)
    requires i < |ops|
    ensures Run(s, ops).1[i] == Step(Run(s, ops[..i]).0, ops[i]).1
  {
    assert ops == ops[..i] + ops[i..];
    RunAppend(s, ops[..i], ops[i..]);
    var mid := Run(s, ops[..i]).0;
    assert ops[i..][0] == ops[i];
    assert Run(mid, ops[i..]).1[0] == Step(mid, ops[i]).1;
  }

  /**
    At any point of a call sequence whose pops so far are all matched, a
    `GetStackCount` call reports the number of pushes so far not yet popped;
    what comes after the call (an unmatched pop, say) does not matter.
   */
  lemma CountReportsUnmatchedPushes(s: State, ops: seq<Op>, i: nat)
    requires i < |ops| && ops[i] == Count
    requires PopsMatched(|s.stack|, ops[..i])
    requires Pops(ops[..i]) <= |s.stack| + Pushes(ops[..i])
    ensures Run(s, ops).1[i] == Returned(Depth(GetStackCount(s) + Pushes(ops[..i]) - Pops(ops[..i])))
  {
    StackCountIsUnmatchedPushes(s, ops[..i]);
    RunAt(s, ops, i);
  }
}

=== FILE: properties.dfy ===
/** Properties relating several lifecycle operations of one class. */
module SingletonProperties {
  import opened Wrappers
  import opened Singleton

  /** A push followed by a pop puts the record back as it was (bar the identities handed out). */
  lemma PushPopRoundTrip(s: State, x: Option<Inst>)
    ensures PopSingleton(PushSingleton(s, x)) == Success(s.(nextId := PushSingleton(s, x).nextId))
    ensures x.Some? ==> PopSingleton(PushSingleton(s, x)) == Success(s)
  {
  }

  /** On a class with no instance, `SetSingleton` then `ClearSingleton` undoes the set. */
  lemma SetClearRoundTrip(s: State, x: Inst)
    requires ModeOf(s) == Unset
    ensures SetSingleton(s, x).Success?
    ensures ClearSingleton(SetSingleton(s, x).value) == Success(s)
  {
  }

  /**
    The first `GetSingleton` on a class with no instance constructs the default
    exactly once and makes it the base; every later call returns it without
    constructing again, and `SetSingleton` is then refused.
   */
  lemma LazyDefaultConstructedOnce(s: State, y: Inst)
    requires ModeOf(s) == Unset
    ensures var (s1, d) := GetSingleton(s);
      && s1.constructCount == s.constructCount + 1
      && s1.base == Some(d) && s1.stack == []
      && HasSingleton(s1)
      && GetSingleton(s1) == (s1, d)
      && SetSingleton(s1, y) == Failure(SingletonAlreadySetError)
      && PopSingleton(s1) == Failure(PushPopSingletonError)
  {
  }

  /** While the stack is in use, `SetSingleton` and `ClearSingleton` raise whatever the base. */
  lemma StackedForbidsSetAndClear(s: State, x: Inst)
    requires GetStackCount(s) > 0
    ensures SetSingleton(s, x) == Failure(PushPopSingletonError)
    ensures ClearSingleton(s) == Failure(PushPopSingletonError)
    ensures HasSingleton(s)
  {
  }
}

=== FILE: singleton.dfy ===
/**
  Per-class singleton lifecycle of `oop_ext.foundation.singleton.Singleton`.

  Each class that derives from `Singleton` owns one lifecycle record: an optional
  base instance (set by `SetSingleton` or lazily created by `GetSingleton`) and an
  override stack (grown by `PushSingleton`, shrunk by `PopSingleton`). The base is
  never part of the stack. Objects are opaque identities handed out by a counter,
  so that "the same instance" can be stated.
 */
module Singleton {
  import opened Wrappers

  /** Object identity; every construction yields a new one (see `Allocate`). */
  type Inst = nat

  /** The three exception classes the module raises. */
  datatype Error =
    | SingletonAlreadySetError
    | SingletonNotSetError
    | PushPopSingletonError

  /**
    The lifecycle record of one class.
    - `base`: the instance set by `SetSingleton` or created by `GetSingleton`;
    - `stack`: the override stack, its last element being the active override;
    - `constructCount`: how many times the lazy-construction path of
      `GetSingleton` (`_ObtainStack` followed by `CreateDefaultSingleton`) ran;
    - `nextId`: the identity the next constructed object receives.
   */
  datatype State = State(base: Option<Inst>, stack: seq<Inst>, constructCount: nat, nextId: nat)

  /** The mode derived from a record: never stored, always recomputed. */
  datatype Mode = Unset | BaseSet | Stacked(depth: nat)

  function ModeOf(s: State): Mode {
    if |s.stack| > 0 then Stacked(|s.stack|)
    else if s.base.Some? then BaseSet
    else Unset
  }

  /** The instance handed out without constructing anything: the top of the stack, else the base. */
  function Current(s: State): Option<Inst> {
    if |s.stack| > 0 then Some(s.stack[|s.stack| - 1]) else s.base
  }

  /** `x` is referenced by the record, as its base or somewhere in its stack. */
  predicate Holds(s: State, x: Inst) {
    s.base == Some(x) || x in s.stack
  }

  /** Every identity the record refers to was handed out before. */
  predicate Valid(s: State) {
    && (s.base.Some? ==> s.base.value < s.nextId)
    && forall i :: 0 <= i < |s.stack| ==> s.stack[i] < s.nextId
  }

  /**
    Constructing an object (`MySingleton(...)` at a call site, or the
    `CreateDefaultSingleton` hook): a new identity, nothing else changes.
   */
  function Allocate(s: State): (r: (State, Inst))
    ensures r.0 == s.(nextId := r.0.nextId)
    // the new identity differs from every one handed out before, and is never handed out again
    ensures s.nextId <= r.1 < r.0.nextId
    ensures Valid(s) ==> !Holds(s, r.1) && Valid(r.0)
  {
    (s.(nextId := s.nextId + 1), s.nextId)
  }

  /**
    `GetSingleton`: the current instance; when there is none, the default is
    constructed once, stored as the base and returned. Never raises.
   */
  function GetSingleton(s: State): (r: (State, Inst))
    // fast path: an existing instance is returned and nothing is constructed
    ensures Current(s).Some? ==> r == (s, Current(s).value)
    // slow path: a brand-new default becomes the base, the stack is untouched
    ensures Current(s).None? ==>
      && r.0.base == Some(r.1)
      && r.0.stack == s.stack
      && r.0.constructCount == s.constructCount + 1
      && s.nextId <= r.1 < r.0.nextId
      && (Valid(s) ==> !Holds(s, r.1))
    // whatever was returned is what the next call sees
    ensures Current(r.0) == Some(r.1)
    ensures Valid(s) ==> Valid(r.0)
  {
    if |s.stack| > 0 then (s, s.stack[|s.stack| - 1])
    else if s.base.Some? then (s, s.base.value)
    else
      var (s1, d) := Allocate(s);
      (s1.(base := Some(d), constructCount := s1.constructCount + 1), d)
  }

  /** `HasSingleton`: whether an instance is current; it never constructs one. */
  function HasSingleton(s: State): (r: bool)
    ensures r <==> ModeOf(s) != Unset
    ensures r <==> GetSingleton(s).0 == s
  {
    s.base.Some? || |s.stack| > 0
  }

  /** `GetStackCount`: the depth of the override stack; the base does not count. */
  function GetStackCount(s: State): (n: nat)
    ensures n == 0 <==> !ModeOf(s).Stacked?
    ensures ModeOf(s).Stacked? ==> n == ModeOf(s).depth
  {
    |s.stack|
  }

  /**
    `SetSingleton(x)`: installs `x` as the base. Forbidden while the stack is in
    use, and when a base already exists (set explicitly or auto-created).
   */
  function SetSingleton(s: State, x: Inst): (r: Result<State, Error>)
    ensures ModeOf(s).Stacked? ==> r == Failure(PushPopSingletonError)
    ensures ModeOf(s) == BaseSet ==> r == Failure(SingletonAlreadySetError)
    ensures r.Success? <==> ModeOf(s) == Unset
    ensures r.Success? ==>
      && GetSingleton(r.value) == (r.value, x)
      && r.value.stack == s.stack
      && r.value.constructCount == s.constructCount
      && r.value.nextId == s.nextId
  {
    if |s.stack| > 0 then Failure(PushPopSingletonError)
    else if s.base.Some? then Failure(SingletonAlreadySetError)
    else Success(s.(base := Some(x)))
  }

  /**
    `ClearSingleton`: drops the base. Forbidden while the stack is in use, and
    when there is no base to drop.
   */
  function ClearSingleton(s: State): (r: Result<State, Error>)
    ensures ModeOf(s).Stacked? ==> r == Failure(PushPopSingletonError)
    ensures ModeOf(s) == Unset ==> r == Failure(SingletonNotSetError)
    ensures r.Success? <==> ModeOf(s) == BaseSet
    ensures r.Success? ==>
      && !HasSingleton(r.value)
      && r.value.stack == s.stack
      && r.value.constructCount == s.constructCount
      && r.value.nextId == s.nextId
  {
    if |s.stack| > 0 then Failure(PushPopSingletonError)
    else if s.base.None? then Failure(SingletonNotSetError)
    else Success(s.(base := None))
  }

  /**
    `PushSingleton(x)`: makes `x` the current instance on top of the stack; with
    no argument a default is constructed through `CreateDefaultSingleton`
    (directly, not through the lazy-construction path). Never raises.
   */
  function PushSingleton(s: State, x: Option<Inst>): (r: State)
    ensures |r.stack| == |s.stack| + 1 && r.stack[..|s.stack|] == s.stack
    ensures r.base == s.base && r.constructCount == s.constructCount
    ensures x.Some? ==> Current(r) == x && r.nextId == s.nextId
    ensures x.None? ==>
      && Current(r).Some?
      && s.nextId <= Current(r).value < r.nextId
      && (Valid(s) ==> !Holds(s, Current(r).value))
    ensures Valid(s) && (x.Some? ==> x.value < s.nextId) ==> Valid(r)
  {
    match x
    case Some(i) => s.(stack := s.stack + [i])
    case None =>
      var (s1, d) := Allocate(s);
      s1.(stack := s1.stack + [d])
  }

  /**
    `PopSingleton`: discards the top of the stack. Raises on an empty stack,
    even when a base exists, since the base is not part of the stack.
   */
  function PopSingleton(s: State): (r: Result<State, Error>)
    ensures r.Failure? <==> s.stack == []
    ensures r.Failure? ==> r.error == PushPopSingletonError
    ensures r.Success? ==>
      && r.value.stack + [s.stack[|s.stack| - 1]] == s.stack
      && r.value.base == s.base
      && r.value.constructCount == s.constructCount
      && r.value.nextId == s.nextId
    ensures r.Success? && Valid(s) ==> Valid(r.value)
  {
    if |s.stack| == 0 then Failure(PushPopSingletonError)
    else Success(s.(stack := s.stack[..|s.stack| - 1]))
  }
}

=== FILE: singleton_tests.dfy ===
/**
  The sequential tests of `_tests/test_singleton.py`, stated on the model for
  every class that has no instance yet (not just one fresh class). Each call of
  a test is one operation applied to the record the previous call left; a call
  that raises leaves the record as it was, so the next call starts from the
  same record. `Allocate` stands for a `MySingleton(...)` written at the call site.
 */
module SingletonTests {
  import opened Wrappers
  import opened Singleton

  /** `testSingleton`: auto-created default, refused set, push/pop back to the default. */
  lemma TestSingleton(s0: State)
    requires Valid(s0) && ModeOf(s0) == Unset
    ensures
      // the default is created automatically and returned again
      var (s1, d) := GetSingleton(s0);
      var (s2, d') := GetSingleton(s1);
      && d' == d && s2 == s1
      && s1.constructCount == s0.constructCount + 1
      // SetSingleton(MySingleton(999)) raises: GetSingleton already set one
      && var (s3, y) := Allocate(s2);
      && y != d
      && SetSingleton(s3, y) == Failure(SingletonAlreadySetError)
      && GetSingleton(s3) == (s3, d)
      // push a new instance: it becomes current
      && var (s4, p) := Allocate(s3);
      && var s5 := PushSingleton(s4, Some(p));
      && p != d
      && GetSingleton(s5) == (s5, p)
      // SetSingleton inside push/pop raises
      && var (s6, z) := Allocate(s5);
      && SetSingleton(s6, z) == Failure(PushPopSingletonError)
      // pop returns to the default
      && PopSingleton(s6).Success?
      && var s7 := PopSingleton(s6).value;
      && GetSingleton(s7) == (s7, d)
      // outside push/pop SetSingleton raises again because one is set
      && var (s8, w) := Allocate(s7);
      && SetSingleton(s8, w) == Failure(SingletonAlreadySetError)
      && GetSingleton(s8) == (s8, d)
      // the base is not part of the stack
      && PopSingleton(s8) == Failure(PushPopSingletonError)
  {
  }

  /** `testSetSingleton`: has / set / refused set / clear / refused clear. */
  lemma TestSetSingleton(s0: State)
    requires Valid(s0) && ModeOf(s0) == Unset
    ensures
      && !HasSingleton(s0)
      && var (s1, v) := Allocate(s0);
      && SetSingleton(s1, v).Success?
      && var s2 := SetSingleton(s1, v).value;
      && HasSingleton(s2)
      && GetSingleton(s2) == (s2, v)
      && var (s3, v') := Allocate(s2);
      && SetSingleton(s3, v') == Failure(SingletonAlreadySetError)
      && ClearSingleton(s3).Success?
      && var s4 := ClearSingleton(s3).value;
      && !HasSingleton(s4)
      && ClearSingleton(s4) == Failure(SingletonNotSetError)
  {
  }

  /** `testPushPop`: default pushes, stack count, refused clear, pop past the bottom. */
  lemma TestPushPop(s0: State)
    requires Valid(s0) && ModeOf(s0) == Unset
    ensures
      var s1 := PushSingleton(s0, None);
      && GetStackCount(s1) == 1
      && ClearSingleton(s1) == Failure(PushPopSingletonError)
      && var s2 := PushSingleton(s1, None);
      && GetStackCount(s2) == 2
      && PopSingleton(s2).Success?
      && var s3 := PopSingleton(s2).value;
      && GetStackCount(s3) == 1
      && PopSingleton(s3).Success?
      && var s4 := PopSingleton(s3).value;
      && GetStackCount(s4) == 0
      && PopSingleton(s4) == Failure(PushPopSingletonError)
  {
  }

  /** `testSingletonOptimization`: the construction path runs on the first get only. */
  lemma TestSingletonOptimization(s0: State)
    requires ModeOf(s0) == Unset
    ensures
      var (s1, _) := GetSingleton(s0);
      var (s2, _) := GetSingleton(s1);
      && s1.constructCount == s0.constructCount + 1
      && s2.constructCount == s1.constructCount
  {
  }
}

=== FILE: wrappers.dfy ===
/** Option and Result, as used by the singleton model. */
module Wrappers {

  /** An optional value: the base slot may be empty, `PushSingleton` may get no instance. */
  datatype Option<+T> = None | Some(value: T)

  /** The outcome of an operation that may raise one of the singleton errors. */
  datatype Result<+R, +E> = Success(value: R) | Failure(error: E)
}
